=== FILE: README.md ===
# WebSocket service of the Open Car Diagnostics ESP32 gateway, in Dafny

The gateway runs an ESP-IDF HTTP server with one WebSocket route, `/ws`, implemented in
`open_car_diagnostics_esp32/src/websocket_server.c`. This project models that file:

- **Frame dispatch** (`echo_handler`). The handler acknowledges the upgrade `GET`. It probes the
  frame length and reads a non-empty payload into a zeroed `len + 1` byte buffer. Then it
  either echoes the frame or, for a text frame whose C string is `"Trigger async"`, starts
  the deferred push.
- **Deferred push** (`trigger_async_send`, `ws_async_send`). A heap record
  `struct async_resp_arg {hd, fd}` is handed to the httpd work queue. The queue's consumer
  later sends the text `"Async data"` to that socket and frees the record.
- **Server lifecycle** (`start_webserver`, `stop_webserver`, `connect_handler`,
  `disconnect_handler`, `init_websocket_server`). These manage the single static `server`
  slot as a Stopped/Running state machine.

Everything the handlers do is a pure function from one immutable `World` record to the next
(`server_state.dfy`). The record holds:

- the `server` slot and the set of running servers;
- the event subscriptions;
- an allocation ledger, where every `malloc`/`calloc` appends a block and every `free`
  bumps that block's free count;
- the work queue, as a FIFO sequence;
- the log of every frame send call.

Every library call (`httpd_ws_recv_frame`, `calloc`, `malloc`, `httpd_ws_send_frame[_async]`,
`httpd_queue_work`, `httpd_start`, `httpd_stop`, `esp_event_handler_register`) is an
abstract operation. Its outcome is an input: the `Env` record for the handler, plain
parameters elsewhere. The received frame's type and bytes are inputs too.

Two invariants carry the main guarantees:

- `Balanced`: a ledger block is unfreed exactly when a queued work item owns it, and every
  other block has been freed exactly once.
- `SlotConsistent`: the set of running servers is exactly the slot's handle, or empty when
  the slot is NULL.

Behaviours of the code worth noting:

- The trigger test is `strcmp` (:120), so a payload `"Trigger async\0..."` also triggers.
- A zero-length frame gets no buffer at all (:102), so its payload pointer stays NULL.
- A failed echo send's error is the handler's return value (:125-130).
- A failed start leaves the slot NULL, so the next `connect_handler` call retries (:162-164).

Files: `esp.dfy` (error codes, bytes, pointers), `heap.dfy` (allocation ledger),
`cstring.dfy` (`strcmp`), `server_state.dfy` (state record, invariants, ledger lemmas),
`async_send.dfy`, `echo_handler.dfy`, `lifecycle.dfy`.

## Model

| member | source | states |
|---|---|---|
| CString.CStr | open_car_diagnostics_esp32/src/websocket_server.c:120 | the C string in a buffer is a zero-free prefix of it that ends at the first zero byte or at the end |
| CString.StrcmpZeroIff | open_car_diagnostics_esp32/src/websocket_server.c:120 | `strcmp` on two NUL-terminated buffers returns 0 exactly when their C strings are equal (both directions) |
| CString.CStrIsPrefix | open_car_diagnostics_esp32/src/websocket_server.c:120 | a buffer holds the zero-free string t exactly when t is a prefix followed by a zero byte or the end |
| ServerState.BootIsConsistent | open_car_diagnostics_esp32/src/websocket_server.c:31 | the boot state (`server == NULL`, nothing allocated, queued or sent) satisfies both invariants and is Stopped |
| ServerState.FreedBlockKeepsBalance | open_car_diagnostics_esp32/src/websocket_server.c:76-78 | a block allocated and freed once before anyone else sees it keeps the ledger balanced |
| ServerState.EnqueueKeepsBalance | open_car_diagnostics_esp32/src/websocket_server.c:69-75 | handing a fresh record to the queue keeps the ledger balanced: the queue owns it, unfreed |
| ServerState.ConsumeKeepsBalance | open_car_diagnostics_esp32/src/websocket_server.c:53-66 | taking the oldest item off the queue and freeing its record keeps the ledger balanced |
| AsyncSend.TriggerAsyncSend | open_car_diagnostics_esp32/src/websocket_server.c:68-80 | nothing is sent; malloc failure gives ESP_ERR_NO_MEM with nothing allocated; result is ESP_OK exactly when malloc and enqueue succeed; exactly one record {req handle, req fd}; on success the queue owns it unfreed, on enqueue failure it is freed once and the error is returned; ledger balance is preserved |
| AsyncSend.WsAsyncSend | open_car_diagnostics_esp32/src/websocket_server.c:53-66 | faults exactly when the argument is not a live record, changing nothing; otherwise one text frame "Async data" goes to the record's (hd, fd) on the async path, the record is freed once, and no other block, the queue, the slot or the servers change |
| AsyncSend.RunNext | open_car_diagnostics_esp32/src/websocket_server.c:53-66 | idle exactly on an empty queue; on a balanced ledger the oldest item runs without fault, its record's reply is sent, the queue loses its head, and balance and all block contents are kept |
| AsyncSend.DrainQueue | open_car_diagnostics_esp32/src/websocket_server.c:53-66 | running the whole queue sends each queued record its "Async data" reply in queue order, frees every record, and leaves a balanced ledger and an empty queue |
| EchoHandler.ReceivePayload | open_car_diagnostics_esp32/src/websocket_server.c:96-118 | a zero-length frame keeps buf NULL; calloc failure returns ESP_ERR_NO_MEM; read failure frees the buffer once and returns the read error; otherwise buf holds the payload followed by a zero byte |
| EchoHandler.EchoHandlerAsWritten | open_car_diagnostics_esp32/src/websocket_server.c:86-131 | the handler as written crashes (NULL passed to strcmp) exactly on a zero-length text frame past the probe |
| EchoHandler.EchoHandler | open_car_diagnostics_esp32/src/websocket_server.c:86-131 | always returns a code; the handshake and a failed probe change nothing; calloc failure returns ESP_ERR_NO_MEM and changes nothing; only heap, queue and sends change; older blocks untouched; ledger balance preserved |
| EchoHandler.TriggerMatches | open_car_diagnostics_esp32/src/websocket_server.c:120 | for every payload, including the empty one, the strcmp test on the terminated payload holds exactly when the payload is "Trigger async" followed by its end or by a zero byte |
| EchoHandler.PayloadBufferLifetime | open_car_diagnostics_esp32/src/websocket_server.c:102-116 | a non-empty frame gets exactly one buffer of len+1 bytes whose last byte is zero, freed exactly once, and any later block is an async_resp_arg record; a failed read returns its error and sends and queues nothing |
| EchoHandler.PayloadBuffersFreedOnce | open_car_diagnostics_esp32/src/websocket_server.c:102-130 | every payload buffer the handler allocates is freed exactly once on every exit path |
| EchoHandler.TriggerIsDeferred | open_car_diagnostics_esp32/src/websocket_server.c:120-122 | a trigger frame gets no synchronous send; the result is trigger_async_send's; one record {req handle, fd} is allocated and is queued exactly when the enqueue succeeds |
| EchoHandler.OtherFramesAreEchoed | open_car_diagnostics_esp32/src/websocket_server.c:125-130 | every other delivered frame is sent back exactly once on the request's socket with the same type and bytes; nothing is queued; the send's result is returned |
| EchoHandler.AsWrittenAgreesOffEmptyText | open_car_diagnostics_esp32/src/websocket_server.c:102-122 | the as-written and corrected handlers give the same result on every input except a zero-length text frame past the probe |
| EchoHandler.EmptyTextFrameReachesStrcmpWithNull | open_car_diagnostics_esp32/src/websocket_server.c:92-120 | an empty text frame violates strcmp's precondition in the as-written handler, which crashes, while the corrected one echoes an empty text frame |
| EchoHandler.TriggerThenRunPushesAsyncData | open_car_diagnostics_esp32/src/websocket_server.c:53-80 | a trigger on an idle queue followed by one queue step sends exactly the 10-byte text "Async data" to the request's socket on the async path, and leaves the queue empty and the ledger balanced |
| Lifecycle.StartWebserver | open_car_diagnostics_esp32/src/websocket_server.c:133-148 | returns a handle exactly when httpd_start succeeds; handles come from a counter that only grows, so the new instance differs from every one started before, and only it is added to the running servers; on failure nothing changes |
| Lifecycle.StopWebserver | open_car_diagnostics_esp32/src/websocket_server.c:150-153 | returns httpd_stop's result; on ESP_OK exactly that server stops running and no other server starts or stops; otherwise nothing changes |
| Lifecycle.Connect | open_car_diagnostics_esp32/src/websocket_server.c:160-166 | Running: no-op; Stopped: Running afterwards exactly when the start succeeds, the slot then holding the new server and no other server starting, and a failed start changing nothing; slot consistency preserved |
| Lifecycle.Disconnect | open_car_diagnostics_esp32/src/websocket_server.c:168-178 | Stopped: no-op; Running: Stopped exactly when the stop returns ESP_OK, and then only the slot's server leaves the running set; a failed stop changes nothing; slot consistency preserved |
| Lifecycle.Register | open_car_diagnostics_esp32/src/websocket_server.c:184-185 | init proceeds exactly when both registrations succeed, adding connect for (IP_EVENT, AP_START) and disconnect for (WIFI_EVENT, AP_STOP) |
| Lifecycle.InitAsWritten | open_car_diagnostics_esp32/src/websocket_server.c:183-187 | only slot, servers and subscriptions change; init completes exactly when both registrations succeed and then adds the two subscriptions; the slot is overwritten, set exactly when the start succeeded, with a new server and none stopped; issued handles stay below the counter; from an empty consistent slot the result is consistent |
| Lifecycle.Init | open_car_diagnostics_esp32/src/websocket_server.c:183-187 | only slot, servers and subscriptions change; init completes exactly when both registrations succeed and then adds the two subscriptions; a new server is started only from an empty slot, and a failed start there changes nothing beyond the registrations; an occupied slot and its server are kept; issued handles stay below the counter; slot consistency preserved |
| Lifecycle.ConnectTwiceIsConnectOnce | open_car_diagnostics_esp32/src/websocket_server.c:160-166 | once a connect has filled the slot, a repeated connect is a no-op |
| Lifecycle.DisconnectTwiceIsDisconnectOnce | open_car_diagnostics_esp32/src/websocket_server.c:168-178 | once a disconnect has cleared the slot, a repeated disconnect is a no-op |
| Lifecycle.InitAsWrittenOrphansRunningServer | open_car_diagnostics_esp32/src/websocket_server.c:186 | init as written on an occupied slot, whether the start succeeds or fails, leaves the old server running but out of the slot, so the slot no longer matches the running servers |
| Lifecycle.RestartGivesFreshServer | open_car_diagnostics_esp32/src/websocket_server.c:160-178 | a successful stop then a successful start leaves exactly one running server, a new one, in the slot |
| Lifecycle.LifecycleKeepsOneServer | open_car_diagnostics_esp32/src/websocket_server.c:160-187 | any sequence of start/stop events and guarded init calls keeps slot consistency: at most one running server, the one in the slot |

## Left out

- Logging (`ESP_LOGI`/`ESP_LOGE`) has no effect on the model.
- The return value of `httpd_register_uri_handler` (:142) is ignored by the code. The model does not track route registration; a started server is assumed to serve `/ws`.
- `HTTPD_DEFAULT_CONFIG()` and the listening port are not modelled. What `httpd_start` and `httpd_stop` do inside is reduced to success or failure.
- What `httpd_stop` does with work items still queued for the stopped server is library behaviour. The model leaves them queued, and a later send to a stale socket is just a failed send result.
- Concurrency is not modelled. Handlers, the httpd task and the event loop run one step at a time, and the work queue is a FIFO with an explicit `RunNext` step.
- Event routing is out of scope. The model records the two subscriptions but not which events reach them. Note that `connect_handler` is registered with the `IP_EVENT` base paired with the id `WIFI_EVENT_AP_START` (:184).
- EchoHandler.ReceivePayload: the model equates the length the probe reports (:96) with the payload that is then delivered, so `len` is always the length of real bytes. The length comes from the client's frame header, and `len` is a 32-bit `size_t`. A declared length of SIZE_MAX makes `len + 1` at :104 wrap to 0, so `calloc(1, 0)` would be followed by a read of `len` bytes at :111, a possible buffer overrun. That wrap is not modelled.
- Socket descriptors are plain ints.
- Buffer contents after a failed payload read are not modelled. The block keeps its zeroed `calloc` contents; only its allocation and free count matter.
- The `strcmp` model states only `strcmp`'s result being zero or non-zero, and its sign as the difference of the first differing unsigned bytes. The C standard fixes only the sign.
- The rest of the repository (WiFi SoftAP and mDNS setup, NVS and task bring-up, the UDP server, the web UI) is not part of this model.

## Findings

| source | as written | input that shows it | evidently intended | confidence | as-written member | corrected member |
|---|---|---|---|---|---|---|
| open_car_diagnostics_esp32/src/websocket_server.c:102-120 | `buf` is only allocated when `len != 0`. A text frame then reaches `strcmp((char*)ws_pkt.payload, "Trigger async")` with `payload == NULL`, which is undefined behaviour. | a WebSocket text frame of length 0 | an empty text frame is not the trigger, so it is echoed as an empty text frame | high; not executed | EchoHandler.EchoHandlerAsWritten, EchoHandler.EmptyTextFrameReachesStrcmpWithNull | EchoHandler.EchoHandler, EchoHandler.OtherFramesAreEchoed |
| open_car_diagnostics_esp32/src/websocket_server.c:183-187 | `server = start_webserver()` runs whatever the slot holds, after the handlers are registered; the old server is lost whether the new start succeeds or leaves the slot NULL | `init_websocket_server` called while `server` holds a running server (a second init, or `connect_handler` having run after the registration) | start only from an empty slot, as `connect_handler` does, so one server runs at most | medium; not executed | Lifecycle.InitAsWritten, Lifecycle.InitAsWrittenOrphansRunningServer | Lifecycle.Init, Lifecycle.LifecycleKeepsOneServer |

=== FILE: async_send.dfy ===
/** The deferred push: `trigger_async_send` hands an `async_resp_arg` record to the httpd
    work queue, and the queue's consumer runs `ws_async_send` on it later. */
module AsyncSend {
  import opened Esp
  import opened Heap
  import opened ServerState

  /** The canned text `ws_async_send` pushes. */
  const ASYNC_DATA: seq<byte> := [65, 115, 121, 110, 99, 32, 100, 97, 116, 97]  // "Async data"

  /** The frame the deferred path sends to `rec`'s socket. */
  function AsyncReply(rec: Contents, result: EspErr): (s: Send)
    requires rec.RespArg?
  {
    Send(rec.hd, rec.fd, Frame(Text, ASYNC_DATA), Async, result)
  }

  /** `trigger_async_send(handle, req)`: allocate a record `{req->handle, sockfd(req)}` and
      queue `ws_async_send` on it. `mallocOk` and `queueResult` are what `malloc` and
      `httpd_queue_work` report. */
  function TriggerAsyncSend(w: World, handle: Handle, req: Request, mallocOk: bool, queueResult: EspErr)
    : (r: (World, EspErr))
    // nothing is sent synchronously, and only the heap and the queue change
    ensures r.0 == w.(heap := r.0.heap, queue := r.0.queue)
    ensures w.heap <= r.0.heap
    // allocation failure: nothing allocated, nothing queued
    ensures !mallocOk ==> r == (w, ESP_ERR_NO_MEM)
    // the call succeeds exactly when both the allocation and the enqueue do
    ensures r.1 == ESP_OK <==> mallocOk && queueResult == ESP_OK
    // exactly one record, carrying the request's server and socket
    ensures mallocOk ==> |r.0.heap| == |w.heap| + 1 && r.0.heap[|w.heap|].contents == RespArg(req.hd, req.fd)
    // success: the queue owns the record, which stays allocated
    ensures mallocOk && queueResult == ESP_OK ==>
              r.0.queue == w.queue + [WorkItem(handle, Addr(|w.heap|))] && r.0.heap[|w.heap|].frees == 0
    // enqueue failure: the record is freed once and the queue's error is returned
    ensures mallocOk && queueResult != ESP_OK ==>
              r.0.queue == w.queue && r.0.heap[|w.heap|].frees == 1 && r.1 == queueResult
    ensures Balanced(w) ==> Balanced(r.0)
  {
    if !mallocOk then (w, ESP_ERR_NO_MEM)
    else
      var rec := RespArg(req.hd, req.fd);
      var (heap1, arg) := Alloc(w.heap, rec);
      if queueResult == ESP_OK then
        var w' := w.(heap := heap1, queue := w.queue + [WorkItem(handle, arg)]);
        EnqueueKeepsBalance(w, rec, handle);
        (w', ESP_OK)
      else
        var w' := w.(heap := Free(heap1, arg));
        FreedBlockKeepsBalance(w, rec);
        (w', queueResult)
  }

  /** The consumer's view of one queue step. */
  datatype Consumed = Idle | Ran(world: World) | Faulted(world: World, fault: Fault)

  /** `ws_async_send(arg)`: read `{hd, fd}` from the record, push the canned text to that
      socket with `httpd_ws_send_frame_async` (whose result, `sendResult`, is ignored) and
      free the record. */
  function WsAsyncSend(w: World, arg: Ptr, sendResult: EspErr): (r: Consumed)
    ensures r.Faulted? <==> !(Valid(w.heap, arg) && w.heap[arg.index].frees == 0 && w.heap[arg.index].contents.RespArg?)
    ensures r.Faulted? ==> r.world == w
    ensures r.Ran? ==>
              && r.world.sends == w.sends + [AsyncReply(w.heap[arg.index].contents, sendResult)]
              && |r.world.heap| == |w.heap|
              && r.world.heap[arg.index] == Block(w.heap[arg.index].contents, 1)
    // only the record and the send log change
    ensures r.Ran? ==>
              && r.world == w.(heap := r.world.heap, sends := r.world.sends)
              && forall i :: 0 <= i < |w.heap| && i != arg.index ==> r.world.heap[i] == w.heap[i]
  {
    if !(Valid(w.heap, arg) && w.heap[arg.index].frees == 0 && w.heap[arg.index].contents.RespArg?) then
      Faulted(w, UseAfterFree)
    else
      var rec := w.heap[arg.index].contents;
      var w1 := w.(sends := w.sends + [AsyncReply(rec, sendResult)]);
      Ran(w1.(heap := Free(w1.heap, arg)))
  }

  /** The httpd task takes the oldest queued item and runs it. */
  function RunNext(w: World, sendResult: EspErr): (r: Consumed)
    ensures r.Idle? <==> |w.queue| == 0
    // on a balanced ledger the queued record is always live, so the step never faults
    ensures Balanced(w) && |w.queue| > 0 ==>
              && r.Ran?
              && Balanced(r.world)
              && r.world.queue == w.queue[1..]
              && r.world.sends == w.sends + [AsyncReply(w.heap[w.queue[0].arg.index].contents, sendResult)]
              && |r.world.heap| == |w.heap|
              && (forall i :: 0 <= i < |w.heap| ==> r.world.heap[i].contents == w.heap[i].contents)
              && r.world == w.(heap := r.world.heap, queue := r.world.queue, sends := r.world.sends)
  {
    if |w.queue| == 0 then Idle
    else
      ConsumeKeepsBalance(w);
      WsAsyncSend(w.(queue := w.queue[1..]), w.queue[0].arg, sendResult)
  }

  /** The httpd task running the whole queue, one item per entry of `results` (what each
      `httpd_ws_send_frame_async` reports): every queued record gets its canned reply, in
      queue order, and is freed. */
  method DrainQueue(w: World, results: seq<EspErr>) returns (w': World)
    requires Balanced(w) && |results| == |w.queue|
    ensures Balanced(w') && w'.queue == []
    ensures |w'.sends| == |w.sends| + |w.queue| && w'.sends[..|w.sends|] == w.sends
    ensures forall k :: 0 <= k < |w.queue| ==>
              w'.sends[|w.sends| + k] == AsyncReply(w.heap[w.queue[k].arg.index].contents, results[k])
    ensures w' == w.(heap := w'.heap, queue := w'.queue, sends := w'.sends)
  {
    w' := w;
    var k := 0;
    while k < |results|
      invariant 0 <= k <= |results|
      invariant Balanced(w') && w'.queue == w.queue[k..]
      invariant |w'.heap| == |w.heap|
      invariant forall i :: 0 <= i < |w.heap| ==> w'.heap[i].contents == w.heap[i].contents
      invariant |w'.sends| == |w.sends| + k && w'.sends[..|w.sends|] == w.sends
      invariant forall j :: 0 <= j < k ==>
                  w'.sends[|w.sends| + j] == AsyncReply(w.heap[w.queue[j].arg.index].contents, results[j])
      invariant w' == w.(heap := w'.heap, queue := w'.queue, sends := w'.sends)
    {
      assert w'.queue[0] == w.queue[k];
      var step := RunNext(w', results[k]);
      w' := step.world;
      k := k + 1;
    }
  }
}

=== FILE: cstring.dfy ===
/** C strings held in byte buffers, and `strcmp` on them. */
module CString {
  import opened Esp

  /** The C string a buffer holds: the bytes before its first zero byte. */
  function CStr(s: seq<byte>): (r: seq<byte>)
    ensures r <= s
    ensures 0 !in r
    ensures |r| < |s| ==> s[|r|] == 0
  {
    if |s| == 0 || s[0] == 0 then [] else [s[0]] + CStr(s[1..])
  }

  /** `strcmp(a + i, b + i)` on two NUL-terminated buffers: the difference of the first
      pair of (unsigned) bytes that differ, or 0 when both strings end together. Only the
      sign of a non-zero result is fixed by the C standard. */
  function Strcmp(a: seq<byte>, b: seq<byte>, i: nat): (r: int)
    requires i <= |a| && i <= |b|
    requires 0 in a[i..] && 0 in b[i..]
    decreases |a| - i
  {
    if a[i] != b[i] then a[i] - b[i]
    else if a[i] == 0 then 0
    else
      assert a[i..] == [a[i]] + a[i + 1..] && b[i..] == [b[i]] + b[i + 1..];
      Strcmp(a, b, i + 1)
  }

  /** `strcmp` reports equality exactly when the two C strings are equal. */
  lemma {:induction false} StrcmpZeroIff(a: seq<byte>, b: seq<byte>, i: nat)
    requires i <= |a| && i <= |b|
    requires 0 in a[i..] && 0 in b[i..]
    ensures Strcmp(a, b, i) == 0 <==> CStr(a[i..]) == CStr(b[i..])
    decreases |a| - i
  {
    assert a[i..] == [a[i]] + a[i + 1..] && b[i..] == [b[i]] + b[i + 1..];
    if a[i] != b[i] {
      if a[i] != 0 && b[i] != 0 {
        assert CStr(a[i..])[0] != CStr(b[i..])[0];
      }
    } else if a[i] != 0 {
      StrcmpZeroIff(a, b, i + 1);
    }
  }

  /** A buffer holds the zero-free string `t` exactly when `t` is a prefix of it that is
      followed by a zero byte or by the end of the buffer. */
  lemma CStrIsPrefix(s: seq<byte>, t: seq<byte>)
    requires 0 !in t
    ensures CStr(s) == t <==> t <= s && (|s| == |t| || s[|t|] == 0)
  {
  }
}

=== FILE: echo_handler.dfy ===
/** `echo_handler`: the per-request handler of the `/ws` route. It acknowledges the upgrade,
    reads one frame into a NUL-terminated buffer, and either echoes it or, for the text
    "Trigger async", schedules the deferred push instead. */
module EchoHandler {
  import opened Esp
  import opened Heap
  import opened CString
  import opened ServerState
  import opened AsyncSend

  /** The token compared against at the dispatch, without its terminator. */
  const TRIGGER_TOKEN: seq<byte> := [84, 114, 105, 103, 103, 101, 114, 32, 97, 115, 121, 110, 99]  // "Trigger async"

  /** What the library calls report during one run of the handler. */
  datatype Env = Env(
    probe: EspErr,        // `httpd_ws_recv_frame(req, &pkt, 0)`, the length probe
    ftype: FrameType,     // the frame type the probe reports
    payload: seq<byte>,   // the frame's bytes; the probe reports `|payload|` as `len`
    callocOk: bool,       // `calloc(1, len + 1)` returned a buffer
    read: EspErr,         // `httpd_ws_recv_frame(req, &pkt, len)`, the payload read
    send: EspErr,         // `httpd_ws_send_frame(req, &pkt)`, the echo
    mallocOk: bool,       // `malloc(sizeof(struct async_resp_arg))` in the trigger path
    queue: EspErr)        // `httpd_queue_work` in the trigger path

  /** How one run of the handler ends: with a return code, or in undefined behaviour. */
  datatype Exit = Returned(code: EspErr) | Crashed(fault: Fault)

  datatype Step = Step(world: World, exit: Exit)

  /** A payload whose C string, once terminated, is the trigger token: the token followed by
      the end of the payload or by a zero byte. */
  ghost predicate NamesTrigger(payload: seq<byte>) {
    TRIGGER_TOKEN <= payload && (|payload| == |TRIGGER_TOKEN| || payload[|TRIGGER_TOKEN|] == 0)
  }

  /** A data frame whose payload reached the dispatch: not the upgrade request, the probe
      succeeded, and a non-empty payload was allocated and read. */
  predicate Delivered(req: Request, env: Env) {
    && req.verb != Get
    && env.probe == ESP_OK
    && (|env.payload| == 0 || (env.callocOk && env.read == ESP_OK))
  }

  // ---------------------------------------------------------------------------
  // Receiving the payload

  /** Where the handler stands after the payload phase. */
  datatype Receipt = Early(world: World, code: EspErr) | Ready(world: World, buf: Ptr)

  /** The payload phase after a successful probe: a zero-length frame keeps `buf == NULL`;
      otherwise `len + 1` zeroed bytes are allocated and the payload read into them. */
  function ReceivePayload(w: World, env: Env): (r: Receipt)
    ensures r.world == w.(heap := r.world.heap)
    ensures |env.payload| == 0 ==> r == Ready(w, Null)
    ensures |env.payload| > 0 && !env.callocOk ==> r == Early(w, ESP_ERR_NO_MEM)
    ensures |env.payload| > 0 && env.callocOk && env.read != ESP_OK ==>
              r == Early(w.(heap := w.heap + [Block(PayloadBuffer(Zeros(|env.payload| + 1)), 1)]), env.read)
    ensures |env.payload| > 0 && env.callocOk && env.read == ESP_OK ==>
              && r.Ready? && r.buf == Addr(|w.heap|)
              && r.world.heap == w.heap + [Block(PayloadBuffer(env.payload + [0]), 0)]
  {
    if |env.payload| == 0 then Ready(w, Null)
    else if !env.callocOk then Early(w, ESP_ERR_NO_MEM)
    else
      var len := |env.payload|;
      var (heap1, buf) := Calloc(w.heap, len + 1);
      if env.read != ESP_OK then
        Early(w.(heap := Free(heap1, buf)), env.read)
      else
        var heap2 := Write(heap1, buf, env.payload);
        assert heap2[|w.heap|].contents.bytes == env.payload + [0];
        Ready(w.(heap := heap2), buf)
  }

  // ---------------------------------------------------------------------------
  // The two branches of the dispatch

  /** `strcmp` may only be handed a pointer to a NUL-terminated buffer. */
  predicate StrcmpArgOk(h: Ledger, p: Ptr) {
    Valid(h, p) && h[p.index].contents.PayloadBuffer? && 0 in h[p.index].contents.bytes
  }

  /** `strcmp((char*)pkt.payload, "Trigger async") == 0` */
  function IsTriggerText(h: Ledger, buf: Ptr): (b: bool)
    requires StrcmpArgOk(h, buf)
  {
    var literal := TRIGGER_TOKEN + [0];
    assert literal[|TRIGGER_TOKEN|] == 0;
    Strcmp(h[buf.index].contents.bytes, literal, 0) == 0
  }

  /** The trigger branch: free the buffer, then `trigger_async_send(req->handle, req)`,
      whose result is the handler's. */
  function TriggerBranch(w: World, req: Request, env: Env, buf: Ptr): (r: Step)
    requires buf.Null? || Valid(w.heap, buf)
  {
    var w1 := w.(heap := Free(w.heap, buf));
    var (w2, code) := TriggerAsyncSend(w1, req.hd, req, env.mallocOk, env.queue);
    Step(w2, Returned(code))
  }

  /** The bytes `httpd_ws_send_frame` reads: `len` bytes from the payload pointer. */
  function BufferBytes(h: Ledger, buf: Ptr, len: nat): (bytes: seq<byte>)
    requires buf.Null? ==> len == 0
    requires buf.Addr? ==> Valid(h, buf) && h[buf.index].contents.PayloadBuffer?
                           && len <= |h[buf.index].contents.bytes|
  {
    if buf.Null? then [] else h[buf.index].contents.bytes[..len]
  }

  /** The echo branch: send the frame back on the request's socket, free the buffer
      whatever the send reported, and return the send's result. */
  function EchoBranch(w: World, req: Request, env: Env, buf: Ptr): (r: Step)
    requires buf.Null? ==> |env.payload| == 0
    requires buf.Addr? ==> Valid(w.heap, buf) && w.heap[buf.index].contents.PayloadBuffer?
                           && |env.payload| <= |w.heap[buf.index].contents.bytes|
  {
    var frame := Frame(env.ftype, BufferBytes(w.heap, buf, |env.payload|));
    var w1 := w.(sends := w.sends + [Send(req.hd, req.fd, frame, Sync, env.send)]);
    Step(w1.(heap := Free(w1.heap, buf)), Returned(env.send))
  }

  // ---------------------------------------------------------------------------
  // The handler

  /** `echo_handler` as written: a zero-length frame leaves `buf == NULL`, and a text frame
      hands that NULL to `strcmp`. */
  function EchoHandlerAsWritten(w: World, req: Request, env: Env): (r: Step)
    ensures r.exit.Crashed? <==> Delivered(req, env) && env.ftype == Text && |env.payload| == 0
    ensures r.exit.Crashed? ==> r == Step(w, Crashed(NullStrcmp))
  {
    if req.verb == Get then Step(w, Returned(ESP_OK))
    else if env.probe != ESP_OK then Step(w, Returned(env.probe))
    else
      match ReceivePayload(w, env)
      case Early(w1, code) => Step(w1, Returned(code))
      case Ready(w1, buf) =>
        if env.ftype == Text then
          if !StrcmpArgOk(w1.heap, buf) then Step(w1, Crashed(NullStrcmp))
          else if IsTriggerText(w1.heap, buf) then TriggerBranch(w1, req, env, buf)
          else EchoBranch(w1, req, env, buf)
        else EchoBranch(w1, req, env, buf)
  }

  /** `echo_handler` with the dispatch test applied only to a non-NULL buffer, so that an
      empty text frame is echoed like any other frame. */
  function EchoHandler(w: World, req: Request, env: Env): (r: Step)
    ensures r.exit.Returned?
    // the handshake and a failed probe change nothing
    ensures req.verb == Get ==> r == Step(w, Returned(ESP_OK))
    ensures req.verb != Get && env.probe != ESP_OK ==> r == Step(w, Returned(env.probe))
    // a failed `calloc` returns ESP_ERR_NO_MEM and changes nothing
    ensures req.verb != Get && env.probe == ESP_OK && |env.payload| > 0 && !env.callocOk ==>
              r == Step(w, Returned(ESP_ERR_NO_MEM))
    // only the heap, the queue and the sends change, and blocks allocated before are left alone
    ensures r.world == w.(heap := r.world.heap, queue := r.world.queue, sends := r.world.sends)
    ensures w.heap <= r.world.heap
    // the allocation ledger stays balanced, whatever the library reports
    ensures Balanced(w) ==> Balanced(r.world)
  {
    if req.verb == Get then Step(w, Returned(ESP_OK))
    else if env.probe != ESP_OK then Step(w, Returned(env.probe))
    else
      match ReceivePayload(w, env)
      case Early(w1, code) => Step(w1, Returned(code))
      case Ready(w1, buf) =>
        if env.ftype == Text && StrcmpArgOk(w1.heap, buf) && IsTriggerText(w1.heap, buf) then
          TriggerBranch(w1, req, env, buf)
        else
          EchoBranch(w1, req, env, buf)
  }

  // ---------------------------------------------------------------------------
  // Properties

  /** The `strcmp` test on the terminated buffer holds exactly for payloads naming the trigger. */
  lemma TriggerMatches(payload: seq<byte>)
    ensures 0 in payload + [0]
    ensures Strcmp(payload + [0], TRIGGER_TOKEN + [0], 0) == 0 <==> NamesTrigger(payload)
  {
    var buf := payload + [0];
    var literal := TRIGGER_TOKEN + [0];
    assert buf[|payload|] == 0 && literal[|TRIGGER_TOKEN|] == 0;
    StrcmpZeroIff(buf, literal, 0);
    assert buf[0..] == buf && literal[0..] == literal;
    CStrIsPrefix(literal, TRIGGER_TOKEN);
    CStrIsPrefix(buf, TRIGGER_TOKEN);
  }

  /** A non-empty frame gets exactly one zeroed buffer of `len + 1` bytes, so the payload is
      always followed by a terminator, and that buffer is freed exactly once; a failed
      payload read returns its error without sending or queueing anything. */
  lemma PayloadBufferLifetime(w: World, req: Request, env: Env)
    requires req.verb != Get && env.probe == ESP_OK && |env.payload| > 0 && env.callocOk
    ensures var r := EchoHandler(w, req, env);
      && |r.world.heap| > |w.heap|
      && r.world.heap[|w.heap|].contents.PayloadBuffer?
      && |r.world.heap[|w.heap|].contents.bytes| == |env.payload| + 1
      && r.world.heap[|w.heap|].contents.bytes[|env.payload|] == 0
      && r.world.heap[|w.heap|].frees == 1
      && forall i :: |w.heap| < i < |r.world.heap| ==> r.world.heap[i].contents.RespArg?
    ensures var r := EchoHandler(w, req, env);
      env.read != ESP_OK ==>
        && r.exit == Returned(env.read) && r.world.sends == w.sends && r.world.queue == w.queue
        && |r.world.heap| == |w.heap| + 1
  {
  }

  /** No frame leaves a payload buffer behind: every buffer the handler allocates is freed
      exactly once, on every exit path. */
  lemma PayloadBuffersFreedOnce(w: World, req: Request, env: Env)
    ensures var r := EchoHandler(w, req, env);
      forall i :: |w.heap| <= i < |r.world.heap| && r.world.heap[i].contents.PayloadBuffer? ==>
        r.world.heap[i].frees == 1
  {
  }

  /** A text frame naming the trigger is not answered on its socket: its result is
      `trigger_async_send`'s, and one record `{req->handle, fd}` is offered to the queue,
      which keeps it exactly when `httpd_queue_work` succeeds. */
  lemma TriggerIsDeferred(w: World, req: Request, env: Env)
    requires Delivered(req, env) && env.ftype == Text && NamesTrigger(env.payload)
    ensures var r := EchoHandler(w, req, env);
      && r.world.sends == w.sends
      && r.exit == Returned(if env.mallocOk then env.queue else ESP_ERR_NO_MEM)
      && (env.mallocOk ==> |r.world.heap| == |w.heap| + 2
                           && r.world.heap[|w.heap| + 1].contents == RespArg(req.hd, req.fd))
      && r.world.queue == (if env.mallocOk && env.queue == ESP_OK
                           then w.queue + [WorkItem(req.hd, Addr(|w.heap| + 1))] else w.queue)
  {
    TriggerMatches(env.payload);
  }

  /** Every other frame that reaches the dispatch is sent back exactly once, with the same
      type and bytes, nothing is queued, and the send's result is the handler's. */
  lemma OtherFramesAreEchoed(w: World, req: Request, env: Env)
    requires Delivered(req, env) && !(env.ftype == Text && NamesTrigger(env.payload))
    ensures var r := EchoHandler(w, req, env);
      && r.world.sends == w.sends + [Send(req.hd, req.fd, Frame(env.ftype, env.payload), Sync, env.send)]
      && r.world.queue == w.queue
      && r.exit == Returned(env.send)
  {
    if |env.payload| > 0 {
      TriggerMatches(env.payload);
      assert (env.payload + [0])[..|env.payload|] == env.payload;
    }
  }

  /** The as-written handler and the corrected one differ only on the input where the
      former crashes: a zero-length text frame past the probe. */
  lemma AsWrittenAgreesOffEmptyText(w: World, req: Request, env: Env)
    requires !(Delivered(req, env) && env.ftype == Text && |env.payload| == 0)
    ensures EchoHandlerAsWritten(w, req, env) == EchoHandler(w, req, env)
  {
  }

  /** The input that shows the defect: an empty text frame makes the as-written handler
      pass NULL to `strcmp`, while the corrected one echoes an empty text frame. */
  lemma EmptyTextFrameReachesStrcmpWithNull(w: World, hd: Handle, fd: int, send: EspErr)
    ensures var req := Request(Other, hd, fd);
      var env := Env(ESP_OK, Text, [], false, ESP_OK, send, false, ESP_OK);
      && !StrcmpArgOk(ReceivePayload(w, env).world.heap, ReceivePayload(w, env).buf)
      && EchoHandlerAsWritten(w, req, env).exit == Crashed(NullStrcmp)
      && EchoHandler(w, req, env).world.sends == w.sends + [Send(hd, fd, Frame(Text, []), Sync, send)]
  {
  }

  /** A trigger frame on an idle queue, followed by one step of the httpd task: the only
      frame that ever reaches the client is the 10-byte text "Async data", pushed
      asynchronously to the request's socket, and the record is gone again. */
  lemma TriggerThenRunPushesAsyncData(w: World, req: Request, env: Env, sendResult: EspErr)
    requires Balanced(w) && w.queue == []
    requires Delivered(req, env) && env.ftype == Text && NamesTrigger(env.payload)
    requires env.mallocOk && env.queue == ESP_OK
    ensures var c := RunNext(EchoHandler(w, req, env).world, sendResult);
      && c.Ran?
      && c.world.sends == w.sends + [Send(req.hd, req.fd, Frame(Text, ASYNC_DATA), Async, sendResult)]
      && |ASYNC_DATA| == 10
      && c.world.queue == []
      && Balanced(c.world)
  {
    TriggerIsDeferred(w, req, env);
  }
}

=== FILE: esp.dfy ===
/** Plain values of the ESP-IDF interface the websocket server is written against:
    error codes, bytes, C pointers and server handles. */
module Esp {

  /** `esp_err_t` is a C `int`; only the two codes the server produces itself are named. */
  type EspErr = int

  const ESP_OK: EspErr := 0
  const ESP_ERR_NO_MEM: EspErr := 0x101

  /** `uint8_t` */
  type byte = x: int | 0 <= x < 256

  /** Identifies one server instance that `httpd_start` created; a NULL handle is `None`.
      The C `httpd_handle_t` is a heap pointer that may be handed out again after
      `httpd_stop`, so two different `Handle`s mean two different instances, not
      necessarily two different pointer values. */
  type Handle = nat

  datatype Option<+T> = None | Some(value: T)

  /** A C pointer into the allocation ledger: NULL or the index of an allocated block. */
  datatype Ptr = Null | Addr(index: nat)
}

=== FILE: heap.dfy ===
/** The C heap as an allocation ledger: every `malloc`/`calloc` appends a block, every
    `free` bumps that block's free count. A block freed twice shows up as `frees > 1`,
    a leaked one as `frees == 0` with nobody owning it. */
module Heap {
  import opened Esp

  /** What a block was allocated for. */
  datatype Contents =
    | PayloadBuffer(bytes: seq<byte>)   // the frame buffer of `echo_handler`
    | RespArg(hd: Handle, fd: int)      // a `struct async_resp_arg`

  datatype Block = Block(contents: Contents, frees: nat)

  type Ledger = seq<Block>

  predicate Valid(h: Ledger, p: Ptr) {
    p.Addr? && p.index < |h|
  }

  /** Allocation that succeeded: the new block sits at the end of the ledger. */
  function Alloc(h: Ledger, c: Contents): (r: (Ledger, Ptr))
    ensures Valid(r.0, r.1) && r.1.index == |h|
  {
    (h + [Block(c, 0)], Addr(|h|))
  }

  function Zeros(n: nat): (r: seq<byte>)
    ensures |r| == n && forall i :: 0 <= i < n ==> r[i] == 0
  {
    seq(n, _ => 0)
  }

  /** `calloc(1, n)` that succeeded: `n` zeroed bytes. */
  function Calloc(h: Ledger, n: nat): (r: (Ledger, Ptr))
    ensures Valid(r.0, r.1) && r.1.index == |h|
  {
    Alloc(h, PayloadBuffer(Zeros(n)))
  }

  /** `free(p)`; `free(NULL)` does nothing. */
  function Free(h: Ledger, p: Ptr): (r: Ledger)
    requires p.Null? || Valid(h, p)
    ensures |r| == |h|
  {
    if p.Null? then h
    else h[p.index := Block(h[p.index].contents, h[p.index].frees + 1)]
  }

  /** Writing `data` over the first bytes of a payload buffer. */
  function Write(h: Ledger, p: Ptr, data: seq<byte>): (r: Ledger)
    requires Valid(h, p) && h[p.index].contents.PayloadBuffer?
    requires |data| <= |h[p.index].contents.bytes|
    ensures |r| == |h|
  {
    var old_bytes := h[p.index].contents.bytes;
    h[p.index := Block(PayloadBuffer(data + old_bytes[|data|..]), h[p.index].frees)]
  }
}

=== FILE: lifecycle.dfy ===
/** Server lifecycle: `start_webserver`, `stop_webserver`, the two event handlers that
    drive them through the single `server` slot, and `init_websocket_server`. */
module Lifecycle {
  import opened Esp
  import opened ServerState

  /** `start_webserver`: `httpd_start` (whose success is `startOk`) creates a fresh server,
      on which the `/ws` route is registered; on failure the result is NULL. */
  function StartWebserver(w: World, startOk: bool): (r: (World, Option<Handle>))
    ensures r.0 == w.(running := r.0.running, nextHandle := r.0.nextHandle)
    ensures r.1.Some? <==> startOk
    // a new server instance, distinct from every server started before: handles are
    // issued from a counter that only grows
    ensures r.0.nextHandle >= w.nextHandle
    ensures r.1.Some? ==> r.1.value == w.nextHandle < r.0.nextHandle
    ensures r.1.Some? ==> r.0.running == w.running + {r.1.value}
    ensures r.1.Some? && HandlesIssued(w) ==> r.1.value !in w.running
    ensures r.1.None? ==> r.0 == w
    ensures HandlesIssued(w) ==> HandlesIssued(r.0)
  {
    if startOk then
      (w.(running := w.running + {w.nextHandle}, nextHandle := w.nextHandle + 1), Some(w.nextHandle))
    else (w, None)
  }

  /** `stop_webserver(h)` is `httpd_stop(h)`; the server stops when it reports ESP_OK. */
  function StopWebserver(w: World, h: Handle, stopResult: EspErr): (r: (World, EspErr))
    ensures r.1 == stopResult
    ensures r.0 == w.(running := r.0.running)
    // on success exactly that server stops: no other one stops, and none is added
    ensures stopResult == ESP_OK ==> h !in r.0.running && r.0.running + {h} >= w.running && r.0.running <= w.running
    ensures stopResult != ESP_OK ==> r.0 == w
  {
    (if stopResult == ESP_OK then w.(running := w.running - {h}) else w, stopResult)
  }

  /** `connect_handler`: start a server only when the slot is NULL, and store whatever
      `start_webserver` returned. */
  function Connect(w: World, startOk: bool): (r: World)
    ensures r == w.(slot := r.slot, running := r.running, nextHandle := r.nextHandle)
    // Running: nothing happens
    ensures ModeOf(w) == Running ==> r == w
    // Stopped: Running afterwards exactly when the start succeeded
    ensures ModeOf(w) == Stopped ==> (ModeOf(r) == Running <==> startOk)
    // the slot receives the new server `start_webserver` created, and nothing else starts
    ensures ModeOf(w) == Stopped && startOk && HandlesIssued(w) ==>
              r.slot.value !in w.running && r.running == w.running + {r.slot.value}
    ensures ModeOf(w) == Stopped && !startOk ==> r == w
    ensures SlotConsistent(w) ==> SlotConsistent(r)
  {
    if w.slot.None? then
      var (w1, s) := StartWebserver(w, startOk);
      w1.(slot := s)
    else w
  }

  /** `disconnect_handler`: stop a non-NULL slot's server and clear the slot only when the
      stop reports ESP_OK; otherwise the slot keeps its handle. */
  function Disconnect(w: World, stopResult: EspErr): (r: World)
    ensures r == w.(slot := r.slot, running := r.running)
    // Stopped: nothing happens
    ensures ModeOf(w) == Stopped ==> r == w
    // Running: Stopped afterwards exactly when the stop succeeded, with that server gone
    ensures ModeOf(w) == Running ==> (ModeOf(r) == Stopped <==> stopResult == ESP_OK)
    ensures ModeOf(w) == Running && stopResult == ESP_OK ==> r.running == w.running - {w.slot.value}
    ensures ModeOf(w) == Running && stopResult != ESP_OK ==> r == w
    ensures SlotConsistent(w) ==> SlotConsistent(r)
  {
    if w.slot.Some? then
      var (w1, err) := StopWebserver(w, w.slot.value, stopResult);
      if err == ESP_OK then w1.(slot := None) else w1
    else w
  }

  /** How `init_websocket_server` ends: `ESP_ERROR_CHECK` aborts on a failed registration. */
  datatype InitOutcome = Aborted(world: World, err: EspErr) | Initialized(world: World)

  /** What a completed `init_websocket_server` registers, in order. */
  const INIT_SUBSCRIPTIONS: seq<Subscription> := [
    Subscription(IpEvent, WifiEventApStart, ConnectHandler),
    Subscription(WifiEvent, WifiEventApStop, DisconnectHandler)]

  /** The two registrations of `init_websocket_server`: `connect_handler` for
      (IP_EVENT, WIFI_EVENT_AP_START), then `disconnect_handler` for
      (WIFI_EVENT, WIFI_EVENT_AP_STOP); each reports `reg1`/`reg2`. */
  function Register(w: World, reg1: EspErr, reg2: EspErr): (r: InitOutcome)
    ensures r.world == w.(subscriptions := r.world.subscriptions)
    ensures r.Initialized? <==> reg1 == ESP_OK && reg2 == ESP_OK
    ensures r.Initialized? ==> r.world.subscriptions == w.subscriptions + INIT_SUBSCRIPTIONS
  {
    if reg1 != ESP_OK then Aborted(w, reg1)
    else
      var w1 := w.(subscriptions := w.subscriptions + [Subscription(IpEvent, WifiEventApStart, ConnectHandler)]);
      if reg2 != ESP_OK then Aborted(w1, reg2)
      else Initialized(w1.(subscriptions := w1.subscriptions + [Subscription(WifiEvent, WifiEventApStop, DisconnectHandler)]))
  }

  /** `init_websocket_server` as written: after registering, `server = start_webserver()`
      whatever the slot held. */
  function InitAsWritten(w: World, reg1: EspErr, reg2: EspErr, startOk: bool): (r: InitOutcome)
    // only the slot, the servers and the subscriptions change
    ensures r.world == w.(slot := r.world.slot, running := r.world.running,
                          nextHandle := r.world.nextHandle, subscriptions := r.world.subscriptions)
    // a failed registration aborts before any server is started
    ensures r.Initialized? <==> reg1 == ESP_OK && reg2 == ESP_OK
    ensures r.Aborted? ==> r.world.slot == w.slot && r.world.running == w.running
    ensures r.Initialized? ==> r.world.subscriptions == w.subscriptions + INIT_SUBSCRIPTIONS
    // the slot is overwritten with the start's result, and no server is stopped
    ensures r.Initialized? ==> (r.world.slot.Some? <==> startOk)
    ensures r.Initialized? ==> w.running <= r.world.running
    ensures r.Initialized? && startOk && HandlesIssued(w) ==>
              r.world.slot.value !in w.running && r.world.running == w.running + {r.world.slot.value}
    ensures r.Initialized? && !startOk ==> r.world.running == w.running
    ensures HandlesIssued(w) ==> HandlesIssued(r.world)
    ensures r.Initialized? && w.slot.None? && SlotConsistent(w) ==> SlotConsistent(r.world)
  {
    match Register(w, reg1, reg2)
    case Aborted(w1, err) => Aborted(w1, err)
    case Initialized(w1) =>
      var (w2, s) := StartWebserver(w1, startOk);
      Initialized(w2.(slot := s))
  }

  /** `init_websocket_server` with its start guarded like `connect_handler`'s: a server is
      started only when the slot is NULL. */
  function Init(w: World, reg1: EspErr, reg2: EspErr, startOk: bool): (r: InitOutcome)
    // only the slot, the servers and the subscriptions change
    ensures r.world == w.(slot := r.world.slot, running := r.world.running,
                          nextHandle := r.world.nextHandle, subscriptions := r.world.subscriptions)
    // a failed registration aborts before any server is started
    ensures r.Initialized? <==> reg1 == ESP_OK && reg2 == ESP_OK
    ensures r.Aborted? ==> r.world.slot == w.slot && r.world.running == w.running
    ensures r.Initialized? ==> r.world.subscriptions == w.subscriptions + INIT_SUBSCRIPTIONS
    // from an empty slot: a new server exactly when the start succeeds
    ensures r.Initialized? && w.slot.None? ==> (r.world.slot.Some? <==> startOk)
    ensures r.Initialized? && w.slot.None? && startOk && HandlesIssued(w) ==>
              r.world.slot.value !in w.running && r.world.running == w.running + {r.world.slot.value}
    // a failed start, like `connect_handler`'s, changes nothing beyond the registrations
    ensures r.Initialized? && w.slot.None? && !startOk ==> r.world == w.(subscriptions := r.world.subscriptions)
    ensures HandlesIssued(w) ==> HandlesIssued(r.world)
    ensures r.Initialized? && w.slot.Some? ==> r.world.slot == w.slot && r.world.running == w.running
    ensures SlotConsistent(w) ==> SlotConsistent(r.world)
  {
    match Register(w, reg1, reg2)
    case Aborted(w1, err) => Aborted(w1, err)
    case Initialized(w1) => Initialized(Connect(w1, startOk))
  }

  // ---------------------------------------------------------------------------
  // Properties

  /** Once a connect has left a server in the slot, a second connect does nothing. */
  lemma ConnectTwiceIsConnectOnce(w: World, first: bool, second: bool)
    requires w.slot.Some? || first
    ensures Connect(Connect(w, first), second) == Connect(w, first)
  {
  }

  /** Once a disconnect has cleared the slot, a second disconnect does nothing. */
  lemma DisconnectTwiceIsDisconnectOnce(w: World, first: EspErr, second: EspErr)
    requires w.slot.None? || first == ESP_OK
    ensures Disconnect(Disconnect(w, first), second) == Disconnect(w, first)
  {
  }

  /** The input that shows the defect: called while the slot holds a running server,
      the as-written init overwrites the slot with a second server, or with NULL when the
      start fails, and loses the first, which stays running with nothing left that could
      stop it. */
  lemma InitAsWrittenOrphansRunningServer(w: World, reg1: EspErr, reg2: EspErr, startOk: bool)
    requires SlotConsistent(w) && w.slot.Some? && reg1 == ESP_OK && reg2 == ESP_OK
    ensures var r := InitAsWritten(w, reg1, reg2, startOk).world;
      && w.slot.value in r.running
      && r.slot != w.slot
      && |r.running| == (if startOk then 2 else 1)
      && !SlotConsistent(r)
  {
  }

  /** Any sequence of access-point start and stop events and (corrected) init calls keeps
      at most one server running, and it is the one in the slot. */
  lemma {:induction false} LifecycleKeepsOneServer(events: seq<LifecycleEvent>, w: World)
    requires SlotConsistent(w)
    ensures SlotConsistent(Replay(w, events))
    decreases |events|
  {
    if |events| > 0 {
      var w1 := Apply(w, events[0]);
      LifecycleKeepsOneServer(events[1..], w1);
    }
  }

  /** An access-point stop whose `httpd_stop` succeeds, followed by an access-point start
      whose `httpd_start` succeeds, leaves exactly one server running: a new one. */
  lemma RestartGivesFreshServer(w: World)
    requires SlotConsistent(w) && w.slot.Some?
    ensures var r := Connect(Disconnect(w, ESP_OK), true);
      && r.slot.Some? && r.slot.value != w.slot.value
      && r.running == {r.slot.value}
  {
  }

  /** One event the lifecycle handlers react to, with what the library reports. */
  datatype LifecycleEvent =
    | ApStart(startOk: bool)
    | ApStop(stopResult: EspErr)
    | InitCall(reg1: EspErr, reg2: EspErr, startOk: bool)

  function Apply(w: World, e: LifecycleEvent): (r: World) {
    match e
    case ApStart(ok) => Connect(w, ok)
    case ApStop(res) => Disconnect(w, res)
    case InitCall(reg1, reg2, ok) => Init(w, reg1, reg2, ok).world
  }

  function Replay(w: World, events: seq<LifecycleEvent>): (r: World)
    decreases |events|
  {
    if |events| == 0 then w else Replay(Apply(w, events[0]), events[1..])
  }
}

=== FILE: server_state.dfy ===
/** The state the websocket server's handlers act on, as one immutable record, and the
    two invariants the handlers are meant to keep. */
module ServerState {
  import opened Esp
  import opened Heap

  /** `httpd_ws_type_t` */
  datatype FrameType = Continue | Text | Binary | Close | Ping | Pong

  /** An `httpd_ws_frame_t` as it travels: its type and `len` payload bytes. */
  datatype Frame = Frame(ftype: FrameType, payload: seq<byte>)

  /** `httpd_ws_send_frame` answers on the request's socket; `httpd_ws_send_frame_async`
      is the variant the work-queue consumer uses. */
  datatype SendPath = Sync | Async

  /** One send call: where it went, what it carried and what the library returned. */
  datatype Send = Send(hd: Handle, fd: int, frame: Frame, path: SendPath, result: EspErr)

  /** An `httpd_queue_work` entry. The function is always `ws_async_send`, so only the
      target server and the argument pointer are kept. */
  datatype WorkItem = WorkItem(server: Handle, arg: Ptr)

  /** The `httpd_req_t` fields the handler reads: whether it is the upgrade `GET`, the
      server it arrived on and its socket. */
  datatype Method = Get | Other
  datatype Request = Request(verb: Method, hd: Handle, fd: int)

  /** Event registrations made by `init_websocket_server`. */
  datatype EventBase = IpEvent | WifiEvent
  datatype EventId = WifiEventApStart | WifiEventApStop
  datatype Callback = ConnectHandler | DisconnectHandler
  datatype Subscription = Subscription(base: EventBase, id: EventId, callback: Callback)

  datatype World = World(
    slot: Option<Handle>,         // the static `server` variable
    running: set<Handle>,         // servers `httpd_start` created and `httpd_stop` has not stopped
    nextHandle: nat,              // the handle the next successful `httpd_start` returns
    subscriptions: seq<Subscription>,
    heap: Ledger,
    queue: seq<WorkItem>,         // the httpd work queue, oldest first
    sends: seq<Send>)             // every frame send call, oldest first

  /** Undefined behaviour the C code would reach: a NULL pointer passed to `strcmp`, or a
      queued argument that is no longer a live record. */
  datatype Fault = NullStrcmp | UseAfterFree

  /** The state at boot: `server == NULL`, nothing allocated, nothing queued or sent. */
  const Boot: World := World(None, {}, 0, [], [], [], [])

  /** Both invariants hold at boot, where the server is Stopped. */
  lemma BootIsConsistent()
    ensures Balanced(Boot) && SlotConsistent(Boot) && ModeOf(Boot) == Stopped
  {
  }

  // ---------------------------------------------------------------------------
  // Ownership of heap blocks

  /** The blocks the work queue owns. */
  function Owned(q: seq<WorkItem>): (owned: set<nat>) {
    set k | 0 <= k < |q| && q[k].arg.Addr? :: q[k].arg.index
  }

  /** Every queued argument is a live `async_resp_arg` record, and no record is queued twice. */
  predicate QueueOwnsRecords(w: World) {
    && (forall k :: 0 <= k < |w.queue| ==>
          Valid(w.heap, w.queue[k].arg) && w.heap[w.queue[k].arg.index].contents.RespArg?)
    && (forall k, l :: 0 <= k < l < |w.queue| ==> w.queue[k].arg != w.queue[l].arg)
  }

  /** The allocation ledger balances: every block the queue does not own has been freed
      exactly once, and every block it owns has not been freed yet. */
  predicate Balanced(w: World) {
    && QueueOwnsRecords(w)
    && forall i :: 0 <= i < |w.heap| ==> w.heap[i].frees == (if i in Owned(w.queue) then 0 else 1)
  }

  /** A block that is allocated and freed again before anyone else sees it keeps the
      ledger balanced. */
  lemma FreedBlockKeepsBalance(w: World, c: Contents)
    ensures Balanced(w) ==> Balanced(w.(heap := w.heap + [Block(c, 1)]))
  {
  }

  /** Handing a fresh `async_resp_arg` record to the queue keeps the ledger balanced:
      the queue now owns it and it is not freed. */
  lemma {:induction false} EnqueueKeepsBalance(w: World, rec: Contents, server: Handle)
    requires rec.RespArg?
    ensures Balanced(w) ==> Balanced(w.(heap := w.heap + [Block(rec, 0)],
                                        queue := w.queue + [WorkItem(server, Addr(|w.heap|))]))
  {
    if Balanced(w) {
      BalancedEnqueue(w, rec, server);
    }
  }

  lemma {:induction false} BalancedEnqueue(w: World, rec: Contents, server: Handle)
    requires Balanced(w) && rec.RespArg?
    ensures Balanced(w.(heap := w.heap + [Block(rec, 0)],
                        queue := w.queue + [WorkItem(server, Addr(|w.heap|))]))
  {
    var q := w.queue + [WorkItem(server, Addr(|w.heap|))];
    var w' := w.(heap := w.heap + [Block(rec, 0)], queue := q);
    assert Owned(q) == Owned(w.queue) + {|w.heap|} by {
      forall i | i in Owned(q) ensures i in Owned(w.queue) + {|w.heap|} {
        var k :| 0 <= k < |q| && q[k].arg.Addr? && q[k].arg.index == i;
        if k < |w.queue| { assert w.queue[k] == q[k]; }
      }
      assert q[|w.queue|].arg.index == |w.heap|;
      forall i | i in Owned(w.queue) ensures i in Owned(q) {
        var k :| 0 <= k < |w.queue| && w.queue[k].arg.Addr? && w.queue[k].arg.index == i;
        assert q[k] == w.queue[k];
      }
    }
    forall k | 0 <= k < |q|
      ensures Valid(w'.heap, q[k].arg) && w'.heap[q[k].arg.index].contents.RespArg?
    {
      if k < |w.queue| { assert q[k] == w.queue[k]; }
    }
    forall k, l | 0 <= k < l < |q| ensures q[k].arg != q[l].arg {
      assert q[k] == w.queue[k];
      if l == |w.queue| {
        assert q[k].arg.index < |w.heap|;
      } else {
        assert q[l] == w.queue[l];
      }
    }
    forall i | 0 <= i < |w'.heap|
      ensures w'.heap[i].frees == (if i in Owned(q) then 0 else 1)
    {
      if i < |w.heap| {
        assert w'.heap[i] == w.heap[i];
      }
    }
  }

  /** Taking the oldest item off the queue and freeing its record keeps the ledger balanced. */
  lemma ConsumeKeepsBalance(w: World)
    requires |w.queue| > 0
    ensures Balanced(w) ==> Balanced(w.(heap := Free(w.heap, w.queue[0].arg), queue := w.queue[1..]))
  {
  }

  // ---------------------------------------------------------------------------
  // The server slot

  /** The slot holds the one running server, or is NULL and no server runs. */
  predicate SlotConsistent(w: World) {
    && w.running == (if w.slot.Some? then {w.slot.value} else {})
    && HandlesIssued(w)
  }

  /** Every running server's handle was issued by an earlier start. */
  predicate HandlesIssued(w: World) {
    forall h :: h in w.running ==> h < w.nextHandle
  }

  datatype Mode = Stopped | Running

  function ModeOf(w: World): (m: Mode) {
    if w.slot.Some? then Running else Stopped
  }
}
